=== FILE: README.md ===
# Expressivo expressions in Dafny

A model of the `expressivo` expression abstract data type: an immutable
tree of numbers, variables, sums (`Addition`) and products
(`Multiplication`), with its per-variant operations `isPrimitive`,
`toString`, `equals`, `hashCode`, `differentiate` and the construction
helpers `add` and `multiplication`.

The Java interface-plus-classes design becomes one closed datatype,
`Expressions.Expr`, with pure functions over it:

- `java_int.dfy` (`JavaInt`): Java `int` arithmetic. This covers 32-bit
  wrap-around for `+` and `*`, and `% 1000`, which truncates toward zero.
- `expression.dfy` (`Expressions`): the datatype, `IsPrimitive`, the
  `Add` / `Multiply` helpers, and well-formedness. A tree is well-formed
  when every variable name is a nonempty string of ASCII letters.
- `printer.dfy` (`Printer`): `ToString` and `Operand`. A primitive operand
  prints bare and any other operand prints in parentheses, joined by `+`
  or `*` with no whitespace. The file proves that the printer is
  injective.
- `equality.dfy` (`Equality`): structural `Equals` and the Java `Hash`.
- `derivative.dfy` (`Derivative`): `Differentiate` by the sum and product
  rules, never simplified.
- `examples.dfy` (`Examples`): the exact strings and trees the unit tests
  fix.

The two leaf classes, `Number.java` and `Variable.java`, are not part of
this model. Their behaviour comes from the tests. Three choices follow
from that:

- A number's payload is a `nat`. It prints as its decimal digits followed
  by `.0`, the way Java's `Double.toString` prints a whole number below
  10^7 (`42.0`).
- The hash codes of the leaves are a parameter, `LeafHashes`: any
  functions of the payload into `int`.
- The tests never differentiate a variable other than the target. The
  derivative of such a variable is the parameter `other`.

Where the documentation and the code disagree, the model follows the code:

- The `toString` doc comment (`src/expressivo/Expression.java:42-43`)
  asks for whitespace around operators. Both classes emit none, and the
  tests expect none.
- `Multiplication.differentiate` is marked `@Override`, yet the
  `Expression` interface declares no `differentiate`. `Addition` has no
  such method either. The model defines one total `Differentiate`. Its
  number, variable and sum cases follow the rules the tests assert.

## Model

| member | source | states |
|---|---|---|
| JavaInt.Wrap | src/expressivo/Addition.java:37 | a Java `int` result is in 32-bit range and congruent to the exact result modulo 2^32; it is the exact result when that fits |
| JavaInt.WrapUnique | src/expressivo/Addition.java:37 | no other in-range value is congruent to the exact result, so the wrap-around is determined |
| JavaInt.Plus | src/expressivo/Addition.java:37 | Java `h1 + h2` differs from the exact sum by a multiple of 2^32 |
| JavaInt.Times | src/expressivo/Multiplication.java:38 | Java `h1 * h2` differs from the exact product by a multiple of 2^32, and is 0 when either factor is 0 |
| JavaInt.Rem1000 | src/expressivo/Addition.java:37 | Java `% 1000` lies in [-999, 999], never has the opposite sign of the dividend, and differs from it by a multiple of 1000 |
| JavaInt.Rem1000Unique | src/expressivo/Multiplication.java:38 | those three facts determine the remainder: truncation toward zero, not Dafny's Euclidean `%` |
| Expressions.Add | src/expressivo/Expression.java:76-78 | `add(a, b)` is a sum with left `a` and right `b`; it is not primitive, is well-formed iff both operands are, and has their variables and nodes plus one |
| Expressions.Multiply | src/expressivo/Expression.java:84-86 | `multiplication(a, b)` is a product with left `a` and right `b`, with the same facts as `add` |
| Printer.PrimitiveIffNoOperator | src/expressivo/Expression.java:67-70 | a well-formed expression is primitive exactly when its text contains no operator |
| Expressions.IsPrimitive | src/expressivo/Addition.java:42-44 | `isPrimitive` holds exactly for the single-node trees (numbers and variables); every sum and product is non-primitive, as `Multiplication.java:42-44` also returns |
| Printer.ToString | src/expressivo/Multiplication.java:21-27 | `toString` of a well-formed tree has at least one character per node, and a leaf's text starts with a digit or a letter |
| Printer.Operand | src/expressivo/Addition.java:21-24 | a well-formed operand's text starts with `(` exactly when the operand is not primitive, so nested sums and products are always parenthesised and leaves never are; it is never shorter than the operand's node count |
| Printer.CompositeOperator | src/expressivo/Multiplication.java:21-27 | a sum prints `+`, and a product `*`, immediately after its left operand's text |
| Printer.LeafText | test/expressivo/ExpressionTest.java:170-174 | a well-formed leaf prints as a nonempty run of digits, `.` and letters: no operator, no parenthesis |
| Printer.DigitsInjective | test/expressivo/ExpressionTest.java:65-69 | distinct number values print distinct digit strings |
| Printer.LeafTextInjective | test/expressivo/ExpressionTest.java:65-69 | distinct well-formed leaves print differently, and a number never prints like a well-formed variable |
| Printer.PrintBalanced | src/expressivo/Addition.java:20-26 | the printed text and operand text of a well-formed tree have balanced parentheses: every one closes and no prefix closes more than it opened |
| Printer.OperandPrefix | src/expressivo/Addition.java:25 | two operand texts that both start the same text, each followed by an operator, are the same text |
| Printer.CompositeTextParts | src/expressivo/Multiplication.java:21-27 | two well-formed sums or products that print alike have the same operator, and their left children and their right children print alike |
| Printer.PrintInjective | src/expressivo/Expression.java:39-46 | well-formed expressions that print alike are equal, which the promise `e.equals(parse(e.toString()))` requires |
| Equality.Equals | src/expressivo/Expression.java:50-56 | `equals` holds exactly for structurally identical trees: same variant, same payload, equal children in order |
| Equality.EqualsEquivalence | src/expressivo/Expression.java:50-56 | `equals` is reflexive, symmetric and transitive |
| Equality.AdditionEquals | src/expressivo/Addition.java:28-34 | a sum equals a value iff that value is a sum with equal left children and equal right children |
| Equality.MultiplicationEquals | src/expressivo/Multiplication.java:29-35 | a product equals a value iff that value is a product with pairwise-equal children |
| Equality.SumNeverEqualsProduct | test/expressivo/ExpressionTest.java:120-125 | a sum never equals a product, in either direction, whatever the children |
| Equality.SwapEqualsOnlyIfSame | src/expressivo/Addition.java:33 | swapping the operands gives an equal expression iff the operands are equal: neither operator is commutative under `equals` |
| Equality.Hash | src/expressivo/Addition.java:36-38 | the hash of a sum or product lies in [-999, 999] |
| Equality.CompositeHash | src/expressivo/Multiplication.java:37-39 | a sum's or product's hash is the truncated remainder mod 1000 of the 32-bit wrapped sum or product of the child hashes |
| Equality.EqualsImpliesEqualHash | src/expressivo/Expression.java:58-62 | equal expressions have equal hash codes, at any depth of nesting |
| Equality.ProductHashZero | src/expressivo/Multiplication.java:37-39 | a product hashes to 0 whenever either child hashes to 0 |
| Equality.SwappedOperandsCollide | src/expressivo/Addition.java:36-38 | `a+b` and `b+a`, and `a*b` and `b*a`, always hash alike; `Equality.SwapEqualsOnlyIfSame` shows they are nevertheless unequal when `a` differs from `b` |
| Derivative.Differentiate | src/expressivo/Multiplication.java:46-54 | the derivative of a sum or product is a sum |
| Derivative.ProductRule | src/expressivo/Multiplication.java:46-54 | d(u*v) is `(du*v)+(u*dv)`, reusing `u` and `v` unchanged |
| Derivative.ProductDerivativeSize | src/expressivo/Multiplication.java:50-53 | d(u*v) is never primitive and has size(du)+size(v)+size(u)+size(dv)+3 nodes |
| Derivative.LeafRules | test/expressivo/ExpressionTest.java:260-268 | d(number) is `Number(0)` and the derivative of the target variable is `Number(1)` |
| Derivative.SumRule | test/expressivo/ExpressionTest.java:270-274 | d(u+v) is `du+dv`, operand order kept |
| Derivative.DerivativeNotSmaller | src/expressivo/Multiplication.java:50-53 | no derivative has fewer nodes than the expression it came from |
| Derivative.DerivativePrimitive | src/expressivo/Multiplication.java:46-54 | when other variables differentiate to leaves, a derivative is primitive iff the original is |
| Derivative.DerivativeVars | src/expressivo/Multiplication.java:46-54 | when other variables differentiate to numbers, a derivative mentions no variable the original did not |
| Derivative.DerivativeWellFormed | src/expressivo/Multiplication.java:46-54 | when other variables differentiate to well-formed trees, the derivative of a well-formed tree is well-formed |
| Examples.NumberTexts | test/expressivo/ExpressionTest.java:65-69 | `42` prints as `42.0`, and 1 to 5 print as `1.0` to `5.0` |
| Examples.FlatForms | test/expressivo/ExpressionTest.java:71-81 | `1.0+2.0` and `2.0*3.0` are printed exactly, with no whitespace |
| Examples.VariableForms | test/expressivo/ExpressionTest.java:170-192 | the variable `x` prints as `x`, and `x` times 2 as `x*2.0` |
| Examples.NestedForms | test/expressivo/ExpressionTest.java:83-88 | `1.0+(2.0*3.0)` is printed exactly: the product operand in parentheses, the number bare |
| Examples.ProductSums | test/expressivo/ExpressionTest.java:90-96 | `(2.0*3.0)+(4.0*5.0)` is printed exactly |
| Examples.VariableProductSum | test/expressivo/ExpressionTest.java:194-203 | `(x*2.0)+(y*3.0)` is printed exactly |
| Examples.EqualityCases | test/expressivo/ExpressionTest.java:98-125 | the tested pairs of numbers, sums and products are equal or unequal as asserted |
| Examples.VariableEqualityCases | test/expressivo/ExpressionTest.java:176-184 | `x` equals `x` and does not equal `y` |
| Examples.DerivativeCases | test/expressivo/ExpressionTest.java:260-291 | the five tested derivatives, including the nested `(1+x)*(x*1)`, are the exact trees asserted |
| Examples.HashWrapsAround | src/expressivo/Addition.java:36-38 | child hashes add with 32-bit wrap-around: leaf hashes 2147483647 and 1 give a sum hash of -648, not 648 |

## Left out

- `parse` (`src/expressivo/Expression.java:35-37`) only throws
  "unimplemented", so the parse tests have nothing behind them. The
  round-trip promise is modelled as printer injectivity.
- `Number.java` and `Variable.java` are not part of this model. Their
  behaviour comes from the tests only.
- A number's value is a whole `nat`, not a 64-bit float. Fractional values
  and `Double.toString`'s scientific notation (for 10^7 and above) are not
  modelled.
- Number equality is taken to be equality of values. The `equals` of a
  number leaf is not visible.
- Equality.Hash: leaf hash codes are parameters, not the unseen
  `Number.hashCode` / `Variable.hashCode`. For that reason the tests that
  assert two hashes differ (`test/expressivo/ExpressionTest.java:142-154`
  and line 212) are not modelled.
- Derivative.Differentiate: the derivative of a variable other than the
  target is the parameter `other`, because no rule for it is visible.
- Printer.PrintInjective: stated for well-formed trees only, meaning every
  variable name is a nonempty string of ASCII letters. Other names can
  print ambiguously. A name holding `+`, `*`, `(` or `)` breaks the
  operand structure. A name made of digits and `.`, such as `1.0`, prints
  exactly like a number. The constructors' contract excludes such names.
- `equals` against `null` or a non-`Expression` object is left out. In
  Dafny both arguments are always expressions.
- The JUnit harness, the assertions-enabled test and the unused
  `java.util.Stack` import are left out.

=== FILE: derivative.dfy ===
/** Symbolic differentiation by the sum and product rules. The result is
    never simplified: every rule builds new nodes around the derivatives of
    the children and reuses the children themselves unchanged. */
module Derivative {
  import opened Expressions

  /** `differentiate(x)`. A number differentiates to 0, the variable `x`
      itself to 1, a sum to the sum of the derivatives, and a product
      `u*v` to `(du*v)+(u*dv)`. The derivative of a variable other than
      `x` is taken from `other`, since no rule for it is part of this
      model. */
  function Differentiate(e: Expr, x: string, other: string -> Expr): (d: Expr)
    ensures !IsPrimitive(e) ==> d.Addition?
  {
    match e
    case Number(_) => Number(0)
    case Variable(v) => if v == x then Number(1) else other(v)
    case Addition(u, v) =>
      Addition(Differentiate(u, x, other), Differentiate(v, x, other))
    case Multiplication(u, v) =>
      Addition(Multiplication(Differentiate(u, x, other), v),
               Multiplication(u, Differentiate(v, x, other)))
  }

  /** Leaves: a number's derivative is 0 and the variable's own derivative
      is 1. */
  lemma LeafRules(n: nat, x: string, other: string -> Expr)
    ensures Differentiate(Number(n), x, other) == Number(0)
    ensures Differentiate(Variable(x), x, other) == Number(1)
  {
  }

  /** Sum rule: the derivatives of the operands, summed in the same order. */
  lemma SumRule(u: Expr, v: Expr, x: string, other: string -> Expr)
    ensures Differentiate(Add(u, v), x, other)
         == Add(Differentiate(u, x, other), Differentiate(v, x, other))
  {
  }

  /** Product rule: `d(u*v) = (du*v)+(u*dv)`, with `u` and `v` reused as
      they are. */
  lemma ProductRule(u: Expr, v: Expr, x: string, other: string -> Expr)
    ensures var du := Differentiate(u, x, other);
            var dv := Differentiate(v, x, other);
            Differentiate(Multiply(u, v), x, other) == Add(Multiply(du, v), Multiply(u, dv))
  {
  }

  /** The derivative of a product is never primitive and never simplified:
      it has exactly the nodes of `du`, `v`, `u` and `dv` plus three. */
  lemma ProductDerivativeSize(u: Expr, v: Expr, x: string, other: string -> Expr)
    ensures var d := Differentiate(Multiply(u, v), x, other);
            !IsPrimitive(d) &&
            Size(d) == Size(Differentiate(u, x, other)) + Size(v)
                       + Size(u) + Size(Differentiate(v, x, other)) + 3
  {
  }

  /** Without simplification a derivative is never smaller than what was
      differentiated. */
  lemma {:induction false} DerivativeNotSmaller(e: Expr, x: string, other: string -> Expr)
    ensures Size(Differentiate(e, x, other)) >= Size(e)
  {
    match e
    case Number(_) =>
    case Variable(_) =>
    case Addition(u, v) =>
      DerivativeNotSmaller(u, x, other);
      DerivativeNotSmaller(v, x, other);
    case Multiplication(u, v) =>
      DerivativeNotSmaller(u, x, other);
      DerivativeNotSmaller(v, x, other);
  }

  /** Differentiation keeps the primitive/non-primitive distinction when
      the derivatives of other variables are leaves. */
  lemma DerivativePrimitive(e: Expr, x: string, other: string -> Expr)
    requires forall v :: IsPrimitive(other(v))
    ensures IsPrimitive(Differentiate(e, x, other)) <==> IsPrimitive(e)
  {
  }

  /** Differentiation brings in no variable that was not already there, as
      long as the derivatives of other variables are numbers. */
  lemma {:induction false} DerivativeVars(e: Expr, x: string, other: string -> Expr)
    requires forall v :: other(v).Number?
    ensures Vars(Differentiate(e, x, other)) <= Vars(e)
  {
    match e
    case Number(_) =>
    case Variable(v) =>
      if v != x {
        assert other(v).Number?;
      }
    case Addition(u, v) =>
      DerivativeVars(u, x, other);
      DerivativeVars(v, x, other);
    case Multiplication(u, v) =>
      DerivativeVars(u, x, other);
      DerivativeVars(v, x, other);
  }

  /** Differentiating a well-formed tree yields a well-formed tree when the
      derivatives of other variables are well-formed. */
  lemma {:induction false} DerivativeWellFormed(e: Expr, x: string, other: string -> Expr)
    requires WellFormed(e)
    requires forall v :: WellFormed(other(v))
    ensures WellFormed(Differentiate(e, x, other))
  {
    match e
    case Number(_) =>
    case Variable(v) =>
      if v != x {
        assert WellFormed(other(v));
      }
    case Addition(u, v) =>
      DerivativeWellFormed(u, x, other);
      DerivativeWellFormed(v, x, other);
    case Multiplication(u, v) =>
      DerivativeWellFormed(u, x, other);
      DerivativeWellFormed(v, x, other);
  }
}

=== FILE: equality.dfy ===
/** Structural, variant-exact equality (`equals`) and the Java-`int` hash
    (`hashCode`) that must agree with it. */
module Equality {
  import opened JavaInt
  import opened Expressions

  /** `equals`: same variant, and the corresponding children equal in turn.
      A sum never equals a product, and operands are compared in order, so
      neither operator is treated as commutative. */
  function Equals(a: Expr, b: Expr): (eq: bool)
    ensures eq <==> a == b
  {
    match a
    case Number(n) => b.Number? && b.value == n
    case Variable(v) => b.Variable? && b.name == v
    case Addition(l, r) => b.Addition? && Equals(l, b.left) && Equals(r, b.right)
    case Multiplication(l, r) => b.Multiplication? && Equals(l, b.left) && Equals(r, b.right)
  }

  /** The hash codes of the two leaf kinds, whose definitions are not part
      of this model: any functions of the leaf's payload into `int`. */
  datatype LeafHashes = LeafHashes(number: nat -> Int32, variable: string -> Int32)

  /** `hashCode`: a leaf hashes by its payload; a sum hashes to
      `(h(left) + h(right)) % 1000` and a product to
      `(h(left) * h(right)) % 1000`, both in Java `int` arithmetic. */
  function Hash(e: Expr, leaf: LeafHashes): (h: Int32)
    ensures !IsPrimitive(e) ==> -999 <= h <= 999
  {
    match e
    case Number(n) => leaf.number(n)
    case Variable(v) => leaf.variable(v)
    case Addition(l, r) => Rem1000(Plus(Hash(l, leaf), Hash(r, leaf)))
    case Multiplication(l, r) => Rem1000(Times(Hash(l, leaf), Hash(r, leaf)))
  }

  /** `equals` is an equivalence relation. */
  lemma EqualsEquivalence(a: Expr, b: Expr, c: Expr)
    ensures Equals(a, a)
    ensures Equals(a, b) <==> Equals(b, a)
    ensures Equals(a, b) && Equals(b, c) ==> Equals(a, c)
  {
  }

  /** Equal expressions have equal hash codes, at every depth of nesting.
      The law rests on `equals` being structural identity (the contract of
      `Equals`) and on a leaf's hash and a leaf's equality both being
      functions of the same payload: the number's value or the variable's
      name. */
  lemma EqualsImpliesEqualHash(a: Expr, b: Expr, leaf: LeafHashes)
    requires Equals(a, b)
    ensures Hash(a, leaf) == Hash(b, leaf)
  {
  }

  /** A sum equals another value exactly when that value is a sum with
      equal left children and equal right children. */
  lemma AdditionEquals(l: Expr, r: Expr, other: Expr)
    ensures Equals(Addition(l, r), other) <==>
              other.Addition? && Equals(l, other.left) && Equals(r, other.right)
  {
  }

  /** A product equals another value exactly when that value is a product
      with equal left children and equal right children. */
  lemma MultiplicationEquals(l: Expr, r: Expr, other: Expr)
    ensures Equals(Multiplication(l, r), other) <==>
              other.Multiplication? && Equals(l, other.left) && Equals(r, other.right)
  {
  }

  /** A sum and a product are never equal, whatever their children. */
  lemma SumNeverEqualsProduct(a: Expr, b: Expr, c: Expr, d: Expr)
    ensures !Equals(Addition(a, b), Multiplication(c, d))
    ensures !Equals(Multiplication(c, d), Addition(a, b))
  {
  }

  /** Swapping the operands gives an equal expression only when the two
      operands are themselves equal. */
  lemma SwapEqualsOnlyIfSame(a: Expr, b: Expr)
    ensures Equals(Addition(a, b), Addition(b, a)) <==> Equals(a, b)
    ensures Equals(Multiplication(a, b), Multiplication(b, a)) <==> Equals(a, b)
  {
  }

  /** The hash of a sum or product is the truncated remainder of the
      wrapped combination of its children's hashes: it lies strictly
      between -1000 and 1000, has the sign of the wrapped combination, and
      differs from it by a multiple of 1000. */
  lemma CompositeHash(l: Expr, r: Expr, leaf: LeafHashes)
    ensures var s := Plus(Hash(l, leaf), Hash(r, leaf));
            var h := Hash(Addition(l, r), leaf);
            -999 <= h <= 999 && (s >= 0 ==> h >= 0) && (s <= 0 ==> h <= 0) && (s - h) % 1000 == 0
    ensures var p := Times(Hash(l, leaf), Hash(r, leaf));
            var h := Hash(Multiplication(l, r), leaf);
            -999 <= h <= 999 && (p >= 0 ==> h >= 0) && (p <= 0 ==> h <= 0) && (p - h) % 1000 == 0
  {
  }

  /** A product hashes to 0 whenever either child does: zero absorbs. */
  lemma ProductHashZero(l: Expr, r: Expr, leaf: LeafHashes)
    requires Hash(l, leaf) == 0 || Hash(r, leaf) == 0
    ensures Hash(Multiplication(l, r), leaf) == 0
  {
  }

  /** The hash ignores operand order although `equals` does not: swapped
      operands always collide. */
  lemma SwappedOperandsCollide(a: Expr, b: Expr, leaf: LeafHashes)
    ensures Hash(Addition(a, b), leaf) == Hash(Addition(b, a), leaf)
    ensures Hash(Multiplication(a, b), leaf) == Hash(Multiplication(b, a), leaf)
  {
    assert Hash(a, leaf) + Hash(b, leaf) == Hash(b, leaf) + Hash(a, leaf);
    assert Hash(a, leaf) * Hash(b, leaf) == Hash(b, leaf) * Hash(a, leaf);
  }
}

=== FILE: examples.dfy ===
/** The concrete outputs the expression tests fix, stated about the model. */
module Examples {
  import opened JavaInt
  import opened Expressions
  import opened Printer
  import opened Equality
  import opened Derivative

  /** Number leaves print through Java's whole-number rendering. */
  lemma NumberTexts()
    ensures ToString(Number(42)) == "42.0"
    ensures ToString(Number(1)) == "1.0"
    ensures ToString(Number(2)) == "2.0"
    ensures ToString(Number(3)) == "3.0"
    ensures ToString(Number(4)) == "4.0"
    ensures ToString(Number(5)) == "5.0"
  {
    assert Digits(42) == Digits(4) + ['2'];
  }

  /** Sums and products of numbers print with no whitespace. */
  lemma FlatForms()
    ensures ToString(Add(Number(1), Number(2))) == "1.0+2.0"
    ensures ToString(Multiply(Number(2), Number(3))) == "2.0*3.0"
  {
    NumberTexts();
  }

  /** A variable prints as its name, bare or as an operand. */
  lemma VariableForms()
    ensures ToString(Variable("x")) == "x"
    ensures ToString(Multiply(Variable("x"), Number(2))) == "x*2.0"
  {
    NumberTexts();
  }

  /** A non-primitive operand prints in parentheses beside a bare one. */
  lemma NestedForms()
    ensures ToString(Add(Number(1), Multiply(Number(2), Number(3)))) == "1.0+(2.0*3.0)"
  {
    NumberTexts();
    assert Operand(Number(1)) == "1.0";
    assert Operand(Multiply(Number(2), Number(3))) == "(2.0*3.0)";
  }

  /** Two non-primitive operands both print in parentheses. */
  lemma ProductSums()
    ensures ToString(Add(Multiply(Number(2), Number(3)), Multiply(Number(4), Number(5))))
         == "(2.0*3.0)+(4.0*5.0)"
  {
    NumberTexts();
    var l, r := Multiply(Number(2), Number(3)), Multiply(Number(4), Number(5));
    assert ToString(l) == "2.0*3.0";
    assert ToString(r) == "4.0*5.0";
    assert Operand(l) == "(2.0*3.0)";
    assert Operand(r) == "(4.0*5.0)";
    CompositeText(Add(l, r));
  }

  /** The same with variables among the operands. */
  lemma VariableProductSum()
    ensures ToString(Add(Multiply(Variable("x"), Number(2)), Multiply(Variable("y"), Number(3))))
         == "(x*2.0)+(y*3.0)"
  {
    NumberTexts();
    var l, r := Multiply(Variable("x"), Number(2)), Multiply(Variable("y"), Number(3));
    assert ToString(l) == "x*2.0";
    assert ToString(r) == "y*3.0";
    assert Operand(l) == "(x*2.0)";
    assert Operand(r) == "(y*3.0)";
    CompositeText(Add(l, r));
  }

  /** Equal structure is equal; a different number or a different operator is not. */
  lemma EqualityCases()
    ensures Equals(Number(42), Number(42))
    ensures !Equals(Number(42), Number(24))
    ensures Equals(Add(Number(1), Number(2)), Add(Number(1), Number(2)))
    ensures !Equals(Add(Number(1), Number(2)), Multiply(Number(1), Number(2)))
  {
  }

  /** Variables are equal exactly when their names are. */
  lemma VariableEqualityCases()
    ensures Equals(Variable("x"), Variable("x"))
    ensures !Equals(Variable("x"), Variable("y"))
  {
  }

  /** The derivatives with respect to "x" that the tests fix, whatever rule
      is used for other variables. */
  lemma DerivativeCases(other: string -> Expr)
    ensures Differentiate(Number(1), "x", other) == Number(0)
    ensures Differentiate(Variable("x"), "x", other) == Number(1)
    ensures Differentiate(Addition(Number(1), Variable("x")), "x", other)
         == Addition(Number(0), Number(1))
    ensures Differentiate(Multiplication(Variable("x"), Number(1)), "x", other)
         == Addition(Multiplication(Number(1), Number(1)), Multiplication(Variable("x"), Number(0)))
    ensures Differentiate(
              Multiplication(Addition(Number(1), Variable("x")), Multiplication(Variable("x"), Number(1))),
              "x", other)
         == Addition(
              Multiplication(Addition(Number(0), Number(1)), Multiplication(Variable("x"), Number(1))),
              Multiplication(Addition(Number(1), Variable("x")),
                             Addition(Multiplication(Number(1), Number(1)),
                                      Multiplication(Variable("x"), Number(0)))))
  {
  }

  /** Child hashes are added in 32-bit arithmetic before the remainder is
      taken: with leaf hashes 2147483647 and 1 the sum wraps to -2147483648,
      so the sum's hash is -648 where exact arithmetic would give 648. */
  lemma HashWrapsAround()
    ensures var leaf := LeafHashes(n => if n == 1 then 0x7fff_ffff else 1, v => 0);
            Hash(Addition(Number(1), Number(2)), leaf) == -648
  {
    var leaf := LeafHashes(n => if n == 1 then 0x7fff_ffff else 1, v => 0);
    assert Hash(Number(1), leaf) == 0x7fff_ffff;
    assert Hash(Number(2), leaf) == 1;
    assert Plus(0x7fff_ffff, 1) == -0x8000_0000;
    assert Rem1000(-0x8000_0000) == -648;
  }
}

=== FILE: expression.dfy ===
/** The expression abstract data type: an immutable, closed tree with two
    kinds of leaf (numbers and variables) and two binary operators. */
module Expressions {

  /** A polynomial expression. A number's value is a nonnegative literal
      (kept here as a whole number); a variable is named by a nonempty,
      case-sensitive string of letters. */
  datatype Expr =
    | Number(value: nat)
    | Variable(name: string)
    | Addition(left: Expr, right: Expr)
    | Multiplication(left: Expr, right: Expr)

  /** A leaf: numbers and variables are primitive, sums and products are
      not. The primitive expressions are exactly the single-node trees. */
  predicate IsPrimitive(e: Expr)
    ensures IsPrimitive(e) <==> Size(e) == 1
  {
    e.Number? || e.Variable?
  }

  predicate IsLetter(c: char) {
    ('a' <= c <= 'z') || ('A' <= c <= 'Z')
  }

  /** A legal variable name: nonempty, ASCII letters only. */
  predicate IsName(s: string) {
    |s| > 0 && forall i :: 0 <= i < |s| ==> IsLetter(s[i])
  }

  /** Every variable in the tree has a legal name. */
  predicate WellFormed(e: Expr) {
    match e
    case Number(_) => true
    case Variable(name) => IsName(name)
    case Addition(l, r) => WellFormed(l) && WellFormed(r)
    case Multiplication(l, r) => WellFormed(l) && WellFormed(r)
  }

  /** Number of nodes in the tree. */
  function Size(e: Expr): (n: nat)
    ensures n >= 1
  {
    match e
    case Number(_) => 1
    case Variable(_) => 1
    case Addition(l, r) => Size(l) + Size(r) + 1
    case Multiplication(l, r) => Size(l) + Size(r) + 1
  }

  /** The names of the variables that occur in the tree. */
  function Vars(e: Expr): (vs: set<string>) {
    match e
    case Number(_) => {}
    case Variable(name) => {name}
    case Addition(l, r) => Vars(l) + Vars(r)
    case Multiplication(l, r) => Vars(l) + Vars(r)
  }

  /** The sum of two expressions, operands kept in the given order. */
  function Add(a: Expr, b: Expr): (r: Expr)
    ensures r.Addition? && r.left == a && r.right == b
    ensures !IsPrimitive(r)
    ensures WellFormed(r) <==> WellFormed(a) && WellFormed(b)
    ensures Vars(r) == Vars(a) + Vars(b)
    ensures Size(r) == Size(a) + Size(b) + 1
  {
    Addition(a, b)
  }

  /** The product of two expressions, operands kept in the given order. */
  function Multiply(a: Expr, b: Expr): (r: Expr)
    ensures r.Multiplication? && r.left == a && r.right == b
    ensures !IsPrimitive(r)
    ensures WellFormed(r) <==> WellFormed(a) && WellFormed(b)
    ensures Vars(r) == Vars(a) + Vars(b)
    ensures Size(r) == Size(a) + Size(b) + 1
  {
    Multiplication(a, b)
  }
}

=== FILE: java_int.dfy ===
/** Java's 32-bit `int` arithmetic, written out over unbounded integers:
    two's-complement wrap-around for `+` and `*`, and the remainder `%`,
    which truncates toward zero (its sign follows the dividend). */
module JavaInt {

  const MIN_INT: int := -0x8000_0000
  const MAX_INT: int := 0x7fff_ffff
  /** 2^32, the period of 32-bit wrap-around. */
  const MODULUS: int := 0x1_0000_0000

  /** The values a Java `int` can hold. */
  type Int32 = x: int | MIN_INT <= x <= MAX_INT

  function Abs(x: int): (n: nat) {
    if x < 0 then -x else x
  }

  /** The `int` a Java expression evaluates to when the exact result is `x`:
      the unique value in range that is congruent to `x` modulo 2^32. */
  function Wrap(x: int): (r: Int32)
    ensures (x - r) % MODULUS == 0
    ensures MIN_INT <= x <= MAX_INT ==> r == x
  {
    var m := x % MODULUS;
    if m <= MAX_INT then m else m - MODULUS
  }

  /** Wrap is the only way to land in range congruently: any in-range value
      congruent to `x` modulo 2^32 is `Wrap(x)`. */
  lemma WrapUnique(x: int, r: int)
    requires MIN_INT <= r <= MAX_INT
    requires (x - r) % MODULUS == 0
    ensures r == Wrap(x)
  {
    var w := Wrap(x);
    var k := (x - r) / MODULUS;
    var j := (x - w) / MODULUS;
    assert x - r == k * MODULUS;
    assert x - w == j * MODULUS;
    assert w - r == (k - j) * MODULUS;
  }

  /** Java `a + b` on two `int`s. */
  function Plus(a: Int32, b: Int32): (r: Int32)
    ensures (a + b - r) % MODULUS == 0
  {
    Wrap(a + b)
  }

  /** Java `a * b` on two `int`s. */
  function Times(a: Int32, b: Int32): (r: Int32)
    ensures (a * b - r) % MODULUS == 0
    ensures a == 0 || b == 0 ==> r == 0
  {
    Wrap(a * b)
  }

  /** Java `a % 1000`, the only remainder the source takes: division
      truncates toward zero, so the remainder is smaller than 1000 in
      magnitude and never has the opposite sign of `a`. */
  function Rem1000(a: Int32): (r: Int32)
    ensures -1000 < r < 1000
    ensures a >= 0 ==> r >= 0
    ensures a <= 0 ==> r <= 0
    ensures (a - r) % 1000 == 0
  {
    var m := Abs(a) % 1000;
    if a >= 0 then m else -m
  }

  /** The facts in Rem1000's contract pin the remainder down: no other value
      satisfies them. */
  lemma Rem1000Unique(a: Int32, r: int)
    requires -1000 < r < 1000
    requires a >= 0 ==> r >= 0
    requires a <= 0 ==> r <= 0
    requires (a - r) % 1000 == 0
    ensures r == Rem1000(a)
  {
    var q := Rem1000(a);
    var k := (a - r) / 1000;
    var j := (a - q) / 1000;
    assert a - r == k * 1000;
    assert a - q == j * 1000;
  }
}

=== FILE: printer.dfy ===
/** The canonical printer (`toString`) and the proof that it loses no
    information: two well-formed trees that print alike are the same tree,
    which is what a parser that inverts the printer needs. */
module Printer {
  import opened Expressions

  predicate IsDigit(c: char) {
    '0' <= c <= '9'
  }

  predicate IsOperator(c: char) {
    c == '+' || c == '*'
  }

  /** Characters a leaf may print: digits, the decimal point and letters. */
  predicate IsLeafChar(c: char) {
    IsDigit(c) || c == '.' || IsLetter(c)
  }

  /** Characters a leaf's text may start with: a digit or a letter. */
  predicate IsLeafStart(c: char) {
    IsDigit(c) || IsLetter(c)
  }

  function DigitChar(d: nat): (c: char)
    requires d < 10
    ensures IsDigit(c)
  {
    (48 + d) as char
  }

  /** Decimal digits of `n`, most significant first, no leading zero. */
  function Digits(n: nat): (s: string)
    ensures |s| > 0
    ensures forall i :: 0 <= i < |s| ==> IsDigit(s[i])
    decreases n
  {
    if n < 10 then [DigitChar(n)] else Digits(n / 10) + [DigitChar(n % 10)]
  }

  /** How a number leaf prints: its digits followed by ".0", as Java's
      `Double.toString` renders a whole number (42 prints as "42.0"). */
  function NumberText(n: nat): (s: string)
    ensures |s| > 2 && IsDigit(s[0])
    ensures s[|s| - 2..] == ".0"
  {
    Digits(n) + ".0"
  }

  /** The canonical text of an expression. Operands are joined by `+` or `*`
      with no whitespace; a primitive operand prints bare, any other operand
      is wrapped in parentheses. A well-formed tree prints at least one
      character per node, and a leaf starts with a digit or a letter. */
  function ToString(e: Expr): (s: string)
    ensures WellFormed(e) ==> |s| >= Size(e)
    ensures WellFormed(e) && IsPrimitive(e) ==> IsLeafStart(s[0])
    decreases e, 0
  {
    match e
    case Number(n) => NumberText(n)
    case Variable(name) => name
    case Addition(l, r) => Operand(l) + "+" + Operand(r)
    case Multiplication(l, r) => Operand(l) + "*" + Operand(r)
  }

  /** How `e` prints as the operand of a sum or product: its text starts
      with an opening parenthesis exactly when `e` is not primitive, so a
      nested sum or product is always parenthesised and a leaf never is. */
  function Operand(e: Expr): (s: string)
    ensures WellFormed(e) ==> |s| >= Size(e) && (s[0] == '(' <==> !IsPrimitive(e))
    decreases e, 1
  {
    if IsPrimitive(e) then ToString(e) else "(" + ToString(e) + ")"
  }

  // ---------------------------------------------------------------------
  // Leaves

  /** Distinct numbers have distinct digit strings. */
  lemma {:induction false} DigitsInjective(m: nat, n: nat)
    requires Digits(m) == Digits(n)
    ensures m == n
    decreases n
  {
    if m < 10 && n < 10 {
      assert Digits(m)[0] == Digits(n)[0];
    } else if m < 10 {
      assert false;
    } else if n < 10 {
      assert false;
    } else {
      var dm, dn := Digits(m), Digits(n);
      assert dm[|dm| - 1] == dn[|dn| - 1];
      assert m % 10 == n % 10;
      assert dm[..|dm| - 1] == Digits(m / 10);
      assert dn[..|dn| - 1] == Digits(n / 10);
      DigitsInjective(m / 10, n / 10);
    }
  }

  /** A leaf prints as a nonempty string of leaf characters: no operator,
      no parenthesis. */
  lemma LeafText(e: Expr)
    requires WellFormed(e) && IsPrimitive(e)
    ensures |ToString(e)| > 0
    ensures forall i :: 0 <= i < |ToString(e)| ==> IsLeafChar(ToString(e)[i])
  {
    if e.Number? {
      var s := ToString(e);
      forall i | 0 <= i < |s|
        ensures IsLeafChar(s[i])
      {
        if i < |Digits(e.value)| {
          assert s[i] == Digits(e.value)[i];
        }
      }
    }
  }

  /** A leaf's text starts with a digit exactly when the leaf is a number. */
  lemma LeafFirstChar(e: Expr)
    requires WellFormed(e) && IsPrimitive(e)
    ensures |ToString(e)| > 0
    ensures IsDigit(ToString(e)[0]) <==> e.Number?
  {
    if e.Number? {
      assert ToString(e)[0] == Digits(e.value)[0];
    }
  }

  /** Distinct leaves print differently. */
  lemma LeafTextInjective(a: Expr, b: Expr)
    requires WellFormed(a) && IsPrimitive(a)
    requires WellFormed(b) && IsPrimitive(b)
    requires ToString(a) == ToString(b)
    ensures a == b
  {
    match a
    case Number(m) =>
      if b.Number? {
        var s := ToString(a);
        assert Digits(m) == s[..|s| - 2];
        assert Digits(b.value) == s[..|s| - 2];
        DigitsInjective(m, b.value);
      } else {
        LeafFirstChar(a);
        LeafFirstChar(b);
        assert false;
      }
    case Variable(v) =>
      if b.Number? {
        LeafFirstChar(a);
        LeafFirstChar(b);
        assert false;
      }
  }

  // ---------------------------------------------------------------------
  // Parenthesis depth

  function Step(c: char): (d: int) {
    if c == '(' then 1 else if c == ')' then -1 else 0
  }

  /** Opening minus closing parentheses in `s`. */
  function Depth(s: string): (d: int)
    decreases |s|
  {
    if |s| == 0 then 0 else Depth(s[..|s| - 1]) + Step(s[|s| - 1])
  }

  /** Every parenthesis is closed, and no prefix closes more than it opened. */
  predicate Balanced(s: string) {
    Depth(s) == 0 && forall k :: 0 <= k <= |s| ==> Depth(s[..k]) >= 0
  }

  predicate NoParens(s: string) {
    forall i :: 0 <= i < |s| ==> s[i] != '(' && s[i] != ')'
  }

  lemma {:induction false} DepthAppend(a: string, b: string)
    ensures Depth(a + b) == Depth(a) + Depth(b)
    decreases |b|
  {
    if |b| == 0 {
      assert a + b == a;
    } else {
      var b' := b[..|b| - 1];
      assert (a + b)[..|a + b| - 1] == a + b';
      DepthAppend(a, b');
    }
  }

  lemma {:induction false} FlatDepth(s: string)
    requires NoParens(s)
    ensures Depth(s) == 0
    decreases |s|
  {
    if |s| > 0 {
      FlatDepth(s[..|s| - 1]);
    }
  }

  lemma FlatBalanced(s: string)
    requires NoParens(s)
    ensures Balanced(s)
  {
    FlatDepth(s);
    forall k | 0 <= k <= |s|
      ensures Depth(s[..k]) >= 0
    {
      FlatDepth(s[..k]);
    }
  }

  lemma ConcatBalanced(a: string, b: string)
    requires Balanced(a) && Balanced(b)
    ensures Balanced(a + b)
  {
    DepthAppend(a, b);
    forall k | 0 <= k <= |a + b|
      ensures Depth((a + b)[..k]) >= 0
    {
      if k <= |a| {
        assert (a + b)[..k] == a[..k];
      } else {
        assert (a + b)[..k] == a + b[..k - |a|];
        DepthAppend(a, b[..k - |a|]);
      }
    }
  }

  /** Parenthesising a balanced string keeps it balanced, and every nonempty
      proper prefix of the result is still open. */
  lemma Enclosed(s: string)
    requires Balanced(s)
    ensures Balanced("(" + s + ")")
    ensures forall k :: 0 < k < |s| + 2 ==> Depth(("(" + s + ")")[..k]) > 0
  {
    var w := "(" + s + ")";
    assert Depth("(") == 1 by {
      assert "("[..0] == [];
    }
    forall k | 0 < k < |s| + 2
      ensures Depth(w[..k]) > 0
    {
      assert w[..k] == "(" + s[..k - 1];
      DepthAppend("(", s[..k - 1]);
    }
    assert w[..|w| - 1] == "(" + s;
    DepthAppend("(", s);
    assert w[..|w|] == w;
    assert w[..0] == [];
  }

  /** Printed text is balanced, as operand and as a whole. */
  lemma {:induction false} PrintBalanced(e: Expr)
    requires WellFormed(e)
    ensures Balanced(ToString(e))
    ensures Balanced(Operand(e))
    decreases e
  {
    if IsPrimitive(e) {
      LeafText(e);
      FlatBalanced(ToString(e));
    } else {
      PrintBalanced(e.left);
      PrintBalanced(e.right);
      var op := if e.Addition? then "+" else "*";
      FlatBalanced(op);
      ConcatBalanced(Operand(e.left), op);
      ConcatBalanced(Operand(e.left) + op, Operand(e.right));
      assert ToString(e) == Operand(e.left) + op + Operand(e.right);
      Enclosed(ToString(e));
    }
  }

  // ---------------------------------------------------------------------
  // Injectivity

  /** A sum or product prints its operator right after its left operand. */
  lemma CompositeOperator(e: Expr)
    requires !IsPrimitive(e)
    ensures |Operand(e.left)| < |ToString(e)|
    ensures ToString(e)[|Operand(e.left)|] == (if e.Addition? then '+' else '*')
    ensures IsOperator(ToString(e)[|Operand(e.left)|])
  {
  }

  /** Operands that print alike come from trees that print alike. */
  lemma OperandInjective(a: Expr, b: Expr)
    requires WellFormed(a) && WellFormed(b)
    requires Operand(a) == Operand(b)
    ensures ToString(a) == ToString(b)
  {
    if !IsPrimitive(a) {
      var s := Operand(a);
      assert ToString(a) == s[1..|s| - 1];
      assert ToString(b) == s[1..|s| - 1];
    }
  }

  /** Every operator inside an operand's text is nested in parentheses:
      no position of the operand holds an operator at depth zero. */
  lemma NoTopOperator(e: Expr, k: nat)
    requires WellFormed(e)
    requires k < |Operand(e)|
    ensures !IsOperator(Operand(e)[k]) || Depth(Operand(e)[..k]) > 0
  {
    if IsPrimitive(e) {
      LeafText(e);
    } else if k > 0 {
      PrintBalanced(e);
      Enclosed(ToString(e));
    }
  }

  lemma PrefixOfEqual(x: string, y: string, t1: string, t2: string)
    requires x + t1 == y + t2
    requires |x| < |y| && |t1| > 0
    ensures y[..|x|] == x
    ensures y[|x|] == t1[0]
  {
    assert (x + t1)[..|x|] == x;
    assert (y + t2)[..|x|] == y[..|x|];
    assert (x + t1)[|x|] == t1[0];
  }

  /** No operand's text stops short of another's when both are followed by
      an operator: if `Operand(a)` were a proper prefix of `Operand(b)`,
      the next character of `Operand(b)` would be an operator at
      parenthesis depth zero, which an operand never contains. */
  lemma OperandNotShorter(a: Expr, b: Expr, t1: string, t2: string)
    requires WellFormed(a) && WellFormed(b)
    requires Operand(a) + t1 == Operand(b) + t2
    requires |t1| > 0 && IsOperator(t1[0])
    ensures |Operand(a)| >= |Operand(b)|
  {
    var oa, ob := Operand(a), Operand(b);
    if |oa| < |ob| {
      PrintBalanced(a);
      PrefixOfEqual(oa, ob, t1, t2);
      NoTopOperator(b, |oa|);
      assert false;
    }
  }

  /** Two operands at the head of the same text, each followed by an
      operator, are the same operand. */
  lemma OperandPrefix(a: Expr, b: Expr, t1: string, t2: string)
    requires WellFormed(a) && WellFormed(b)
    requires Operand(a) + t1 == Operand(b) + t2
    requires |t1| > 0 && IsOperator(t1[0])
    requires |t2| > 0 && IsOperator(t2[0])
    ensures Operand(a) == Operand(b)
    ensures t1 == t2
  {
    OperandNotShorter(a, b, t1, t2);
    OperandNotShorter(b, a, t2, t1);
    var s := Operand(a) + t1;
    assert Operand(a) == s[..|Operand(a)|];
    assert Operand(b) == s[..|Operand(b)|];
  }

  /** The printer is injective on well-formed trees: the printed text
      determines the tree, so `parse(e.toString())` can return `e`. */
  lemma {:induction false} PrintInjective(a: Expr, b: Expr)
    requires WellFormed(a) && WellFormed(b)
    requires ToString(a) == ToString(b)
    ensures a == b
    decreases a
  {
    if IsPrimitive(a) && IsPrimitive(b) {
      LeafTextInjective(a, b);
    } else if IsPrimitive(a) {
      LeafText(a);
      CompositeOperator(b);
      assert false;
    } else if IsPrimitive(b) {
      LeafText(b);
      CompositeOperator(a);
      assert false;
    } else {
      CompositeTextParts(a, b);
      PrintInjective(a.left, b.left);
      PrintInjective(a.right, b.right);
    }
  }

  /** The operator a sum or product prints between its operands. */
  function OperatorText(e: Expr): (op: string)
    requires !IsPrimitive(e)
    ensures |op| == 1 && IsOperator(op[0])
    ensures op[0] == '+' <==> e.Addition?
  {
    if e.Addition? then "+" else "*"
  }

  /** A sum or product prints as its left operand followed by its operator
      and its right operand. */
  lemma CompositeText(e: Expr)
    requires !IsPrimitive(e)
    ensures ToString(e) == Operand(e.left) + (OperatorText(e) + Operand(e.right))
  {
  }

  /** Two sums or products that print alike have the same operator and
      children that print alike, position by position. */
  lemma CompositeTextParts(a: Expr, b: Expr)
    requires WellFormed(a) && WellFormed(b)
    requires !IsPrimitive(a) && !IsPrimitive(b)
    requires ToString(a) == ToString(b)
    ensures a.Addition? <==> b.Addition?
    ensures ToString(a.left) == ToString(b.left)
    ensures ToString(a.right) == ToString(b.right)
  {
    var t1 := OperatorText(a) + Operand(a.right);
    var t2 := OperatorText(b) + Operand(b.right);
    CompositeText(a);
    CompositeText(b);
    OperandPrefix(a.left, b.left, t1, t2);
    assert OperatorText(a) == t1[..1] && OperatorText(b) == t2[..1];
    assert Operand(a.right) == t1[1..] && Operand(b.right) == t2[1..];
    OperandInjective(a.left, b.left);
    OperandInjective(a.right, b.right);
  }

  /** A well-formed tree is primitive exactly when its text has no operator. */
  lemma PrimitiveIffNoOperator(e: Expr)
    requires WellFormed(e)
    ensures IsPrimitive(e) <==>
              forall i :: 0 <= i < |ToString(e)| ==> !IsOperator(ToString(e)[i])
  {
    if IsPrimitive(e) {
      LeafText(e);
    } else {
      CompositeOperator(e);
    }
  }
}
